=== FILE: README.md ===
# Product catalog client: state layer in Dafny

This project models the client-side state layer of a single-page product-catalog
application. It has three parts:

- **Session store** (`AuthStore`, `auth_store.dfy`). It holds the access token, the refresh
  token, the signed-in user and the last error. It writes these through to the browser's
  key-value storage, modelled as a `map` from key to stored value. The actions are `Load`
  (the store's initial state), `Login`, `GetCurrentUser`, `RefreshSession`, `Logout` and
  `RestoreSession`. The predicate `Mirrors` says storage holds exactly what memory holds.
- **Catalog store** (`ProductStore`, `product_store.dfy`). It holds the query (search text,
  category, sort field and order, page, page size) and the listing (products, total,
  categories, error, loading flag). It has the getters `TotalPages` and `Skip`, four setters,
  and the actions `FetchCategories`, `FetchProducts`, `FetchProductById`, `AddProduct`,
  `UpdateProduct` and `DeleteProduct`. `ProductsRequest` computes the listing request that
  `fetchProducts` sends: endpoint, separator, parameters and bearer token.
- **Navigation guard** (`Router`, `router.dfy`). It holds the route table and the guard run
  before every navigation. The guard rehydrates the session and then proceeds or redirects.
  `Navigate` follows the guard's redirects, up to a given number of hops.

Every remote call is an input of type `Response<T>` (`Ok(data)` or `Err(message)`).
Each action is a pure function from the old state and the call outcomes to the new state
and the action's return value. `router.push` is recorded as the `pushed` path of an
auth-store `Step`. `JsNumber` models the two number/string conversions the catalog relies
on: `toString` for the `limit` and `skip` parameters, and `Number(id)` in the update.

Three behaviours of the code are worth knowing:
- `isAuthenticated` requires a non-empty access token, not just a present one.
- Refresh keeps the user, and rehydration restores each field on its own. So a session can
  hold an access token without a user or a refresh token
  (`AuthStore.RestoreMayLeavePartialSession`).
- `deleteProduct` removes every listed product whose id is strictly equal to the argument.
  A text id, such as a route parameter, removes nothing, but the total is still
  decremented. `updateProduct`, in contrast, converts its argument with `Number`
  (`ProductStore.UpdateAndDeleteDisagreeOnTextIds`).

## Model

| member | source | states |
|---|---|---|
| Wrappers.ErrorText | src/stores/product.js:101 | The recorded failure message is the server's message when it is non-empty, otherwise the action's fallback, and is never empty when the fallback is not |
| JsNumber.IntToString | src/stores/product.js:73-74 | The decimal text of an integer is non-empty, starts with a minus sign exactly for negatives, is exactly `0` for zero, has no leading zero otherwise, and the digits after the sign read back as the magnitude |
| JsNumber.ParseNumber | src/stores/product.js:158 | `Number(text)`: the empty text gives 0, decimal digits with an optional `+` or `-` sign give their signed value, and every other text gives NaN |
| JsNumber.NatToString | src/stores/product.js:73-74 | The decimal text of a non-negative integer is non-empty, all digits, exactly `0` for zero, and starts with `0` only for zero |
| JsNumber.NatToStringRoundTrip | src/stores/product.js:73-74 | Reading the digits of an integer's decimal text gives back the integer |
| JsNumber.IntToStringRoundTrip | src/stores/product.js:158 | `Number` applied to the text `toString` produces for any integer gives back that integer |
| AuthStore.IsAuthenticated | src/stores/auth.js:14 | Signed in exactly when the access token is present and non-empty |
| AuthStore.Load | src/stores/auth.js:6-12 | The initial state takes each token from storage when stored as non-empty text, and the user when a user record is stored; otherwise null; error null, not loading |
| AuthStore.LoadIsRestoreOfSignedOut | src/stores/auth.js:7-9 | The initial state equals rehydrating a fully signed-out session from the same storage |
| AuthStore.Login | src/stores/auth.js:17-62 | Empty username or password: error set to the fixed text, credentials, storage and loading unchanged. Success: both tokens and the seven-field user set, storage mirrors memory, other keys untouched, error cleared, navigation to `/products`. Failure: server message or fallback, credentials and storage unchanged, not loading |
| AuthStore.LoginWithoutCredentialsSendsNothing | src/stores/auth.js:19-22 | With an empty credential the result does not depend on the server's answer, so no request is made, and the signed-in status is unchanged |
| AuthStore.LoginAuthenticates | src/stores/auth.js:38-52 | After a successful login the session is signed in exactly when the returned access token is non-empty |
| AuthStore.GetCurrentUser | src/stores/auth.js:65-84 | Without a truthy access token nothing changes and null is returned. On success only the user changes, it is persisted, other keys untouched, and it is returned. On failure the result is exactly a refresh attempt's, returning null with no second fetch |
| AuthStore.RefreshSession | src/stores/auth.js:86-108 | Without a truthy refresh token nothing changes and false is returned. On success exactly the two tokens change, both persisted, other keys untouched, true returned. On failure the result is exactly `Logout`'s, with false returned |
| AuthStore.Logout | src/stores/auth.js:111-121 | Tokens and user become null and error and loading are kept. Storage loses exactly the four session keys, including the legacy `token`, and all other keys are untouched. Storage then mirrors memory, the session is signed out, and navigation goes to `/login` |
| AuthStore.LogoutIdempotent | src/stores/auth.js:111-121 | Logging out twice equals logging out once |
| AuthStore.RestoreSession | src/stores/auth.js:123-131 | A field is overwritten with the stored value when storage holds a usable one, else kept. A held field is never cleared, and storage is unchanged |
| AuthStore.RestoreIdempotent | src/stores/auth.js:123-131 | Rehydrating twice equals rehydrating once |
| AuthStore.RestoreAfterLogoutStaysSignedOut | src/stores/auth.js:111-131 | Rehydrating right after a logout changes nothing, so a logout cannot be undone by the guard |
| AuthStore.RestoreMayLeavePartialSession | src/stores/auth.js:123-131 | Rehydration from storage holding only an access token yields a signed-in session with no user and no refresh token |
| AuthStore.RestoreKeepsMirroredClient | src/stores/auth.js:123-131 | When storage mirrors memory, rehydration is the identity |
| AuthStore.ActionsKeepMirror | src/stores/auth.js:17-131 | From a client whose storage mirrors memory, every action leaves storage mirroring memory |
| ProductStore.TotalPages | src/stores/product.js:21 | The page count is the ceiling of total over page size: (n-1)·size < total ≤ n·size, and it is non-negative for a non-negative total |
| ProductStore.TotalPagesExample | src/stores/product.js:21 | 25 products at 12 per page give 3 pages |
| ProductStore.Skip | src/stores/product.js:22 | The offset is non-negative from page 1 on and zero on page 1 |
| ProductStore.NextPageFollows | src/stores/product.js:22 | The next page's offset is the current offset plus one page size |
| ProductStore.PageWindowInRange | src/stores/product.js:21-22 | For any page from 1 to the page count, the offset is at least 0 and below the total |
| ProductStore.SetSearchQuery | src/stores/product.js:27-30 | Sets the search text and page 1; the other query fields and the whole listing are unchanged |
| ProductStore.SetCategory | src/stores/product.js:33-36 | Sets the category and page 1; the other query fields and the whole listing are unchanged |
| ProductStore.SetSorting | src/stores/product.js:39-43 | Sets the sort field, the given order or `asc` when omitted, and page 1; the rest is unchanged |
| ProductStore.SetPage | src/stores/product.js:46-48 | Changes the current page and nothing else |
| ProductStore.FetchCategories | src/stores/product.js:51-59 | The category list starts with `all`, followed by the fetched names on success and by nothing on failure; no other field changes |
| ProductStore.Bearer | src/stores/product.js:67 | A bearer token is sent exactly when the session is signed in, and it is the access token |
| ProductStore.ProductsRequest | src/stores/product.js:62-97 | Non-empty search text selects search. Otherwise a non-empty category other than `all` selects that category, otherwise the unscoped listing. The separator is `&` exactly for search, parameters start with `limit` then `skip`, and the bearer follows the session |
| ProductStore.RequestParams | src/stores/product.js:72-80 | `limit` is the page size and `skip` the offset, always; `sortBy` and `order` are present exactly when the sort field is non-empty, and carry the sort field and order |
| ProductStore.RequestParamCount | src/stores/product.js:72-80 | The request carries exactly two parameters without a sort field and exactly four with one, the third and fourth being `sortBy` with the sort field and `order` with the sort order |
| ProductStore.QueryString | src/stores/product.js:95 | The rendered parameters are empty exactly when there are none, start with the first `name=value` pair, and a single pair renders as exactly `name=value` with nothing after it; `QueryStringCons` states that each further pair follows an `&` |
| ProductStore.SearchIgnoresCategory | src/stores/product.js:83-92 | With non-empty search text, changing the category does not change the request |
| ProductStore.ResetSettersRequestFirstPage | src/stores/product.js:27-43 | After setting search text, category or sorting, the request asks for offset 0 |
| ProductStore.InitialParams | src/stores/product.js:6-18 | The initial query's parameters are limit 12, skip 0, sortBy title, order asc, in that order |
| ProductStore.InitialRequest | src/stores/product.js:69-95 | The initial query uses the unscoped listing, joins with `?`, and renders `limit=12&skip=0&sortBy=title&order=asc` |
| ProductStore.FetchProducts | src/stores/product.js:97-105 | Success replaces products and total with the response's and clears the error. Failure keeps products and total and records the server message or `Failed to load products`. Not loading afterwards; query and categories unchanged |
| ProductStore.FetchProductById | src/stores/product.js:109-125 | Returns the product on success and null on failure with the message recorded; the listing and query never change; not loading afterwards |
| ProductStore.AddProduct | src/stores/product.js:128-146 | On success returns the created record and leaves exactly the state a refetch under the current query leaves, whatever that refetch returns. On failure returns null with listing unchanged and message recorded |
| ProductStore.AddRefetchesSameQuery | src/stores/product.js:135-138 | The refetch after a successful add sends the same request as before the add |
| ProductStore.FindIndex | src/stores/product.js:158 | Finds the first position whose id equals the given number, or reports that none does |
| ProductStore.UpdateProduct | src/stores/product.js:149-170 | On success returns the response record. The listing keeps its length, and exactly the first entry whose id equals `Number(id)` becomes the response record. On failure returns null with products unchanged and message recorded |
| ProductStore.UpdateWithoutMatchKeepsListing | src/stores/product.js:158-161 | A successful update that matches no listed id leaves the listing unchanged |
| ProductStore.TextKeyOfIdMatches | src/stores/product.js:158 | Updating by the decimal text of an id has exactly the same effect as updating by the number itself, wherever that product is listed |
| ProductStore.Without | src/stores/product.js:182 | Keeps exactly the products not strictly equal to the id, never grows, and is the identity when nothing matches; a single product is dropped exactly when it matches |
| ProductStore.WithoutAppend | src/stores/product.js:182 | Filtering a concatenation filters each part and concatenates the results, so with the one-product case the filter keeps the order of what remains and never duplicates |
| ProductStore.DeleteProduct | src/stores/product.js:173-192 | On success returns true, and the listing becomes exactly `Without(products, id)`: the products not strictly equal to the id, in their original order. Total becomes total−1, floored at 0. On failure returns false with products and total unchanged and message recorded |
| ProductStore.DeleteByTextKeyKeepsListing | src/stores/product.js:182-183 | Deleting by a text id removes no listed product but still decrements the total |
| ProductStore.UpdateAndDeleteDisagreeOnTextIds | src/stores/product.js:156-183 | For the text id `"5"`, update replaces product 5 while delete keeps it |
| ProductStore.DeleteFloorsAtZero | src/stores/product.js:183 | Two successful deletions from a total of 1 leave 0 |
| ProductStore.PageSizeIsConstant | src/stores/product.js:16 | No setter or action changes the page size |
| Router.FindFirst | src/router/index.js:10-16 | Lookup by path returns the first record registered under that path |
| Router.Decide | src/router/index.js:28-36 | Redirect to `/login` exactly when auth is required and the session is signed out. Redirect to `/products` exactly when the route is guest-only and the session is signed in. Proceed otherwise |
| Router.BeforeEach | src/router/index.js:24-37 | The guard rehydrates the session first and only ever redirects to `/login` or `/products` |
| Router.GuardSeesStoredToken | src/router/index.js:25-26 | The guard counts the session as signed in exactly when memory or storage holds a non-empty access token, and decides on that |
| Router.RouteTable | src/router/index.js:10-16 | `/login` is guest-only; `/products`, `/products/new` and `/products/:id` require sign-in; `/` leads to `/products` |
| Router.RootLeadsToProducts | src/router/index.js:15 | A navigation to `/` reaches the products page through the redirect record |
| Router.MetaOf | src/router/index.js:10-16 | A path with no record has no flags, and only `/login` is guest-only; `PageFound` and `RouteTable` state the flags of each registered path |
| Router.GuestAndAuthAreExclusive | src/router/index.js:10-16 | No page is both sign-in-only and guest-only, and `/login` is the only guest-only page |
| Router.NavigationSettles | src/router/index.js:24-37 | Every navigation ends after at most one redirect, with the rehydrated session. When the guard lets it through it reaches the requested page; otherwise it reaches the redirect target. A signed-out session never ends on a sign-in-only page, and a signed-in one never ends on a guest-only page, which is only the login page |
| Router.Navigate | src/router/index.js:24-37 | A redirect re-runs the guard on the target (`next(path)`). A navigation that ends, ends on a page the guard lets the final session see, and one redirect hop is always enough to end; `NavigationSettles` states that it keeps the rehydrated session and lands on the requested page or the redirect target |

## Left out

- HTTP requests and their URLs. Each call is an input `Response`, and each listing endpoint is a constructor of `Endpoint`.
- The bearer header of the single-product, add, update and delete calls. Only the listing request carries one in the model; the header rule is the same (`ProductStore.Bearer`).
- Percent-encoding by `encodeURIComponent` and `URLSearchParams`. `HasQuery` encodes the consequence: only the search URL already carries a `?`.
- ProductStore.QueryString: renders `name=value` pairs joined by `&` without form-encoding. The rendering is exact only for values made of ASCII letters, digits and `*-._`.
- JsNumber.IntToString: JavaScript numbers are modelled as unbounded integers printed in full decimal. Real JavaScript numbers are doubles: `toString` switches to exponent form (for example `1e+21`) from 10^21, and integers above 2^53 are not exact. `skip`, `total` and ids are such numbers.
- JsNumber.ParseNumber: `Number(text)` is modelled for the empty text and optionally signed decimal digits. Surrounding whitespace, fractions, exponents and hex forms read as NaN here, although JavaScript parses them.
- AuthStore.Load: JSON serialisation of the user is modelled as storing the record itself. A token key holding a user record, or the `user` key holding text, reads as absent. The application never writes either, and JavaScript would read raw text or throw from `JSON.parse`.
- AuthStore.GetCurrentUser: the profile response is modelled as the seven-field `User`. The real response can carry more fields, which the store would keep.
- Response shapes are assumed well formed. A missing token in a login response, which JavaScript would store as the text `undefined`, is not modelled.
- `router.push` is only recorded as the `pushed` path. Its effects are not modelled.
- `console.error` logging, reactivity and store singletons.
- Concurrency. Interleaved `fetchProducts` calls and stale responses overwriting newer ones are not modelled; each action runs to completion.
- The transient `isLoading`/`loading` = true while a call is awaited. Only the value after each action is stated.
- ProductStore.TotalPages: requires a positive page size. The page size is 12 initially and no action changes it (`PageSizeIsConstant`); JavaScript would yield `Infinity` or `NaN` for 0.
- Router.Navigate: the navigation target is given as its matched route's meta. Vue Router's path-pattern matching (for example `/products/5` against `/products/:id`), case-insensitivity and trailing slashes are library behaviour. Redirect targets are looked up by exact path, which suffices for the static targets `/login` and `/products`.
- Lazy page components, hash history, and the build and styling configuration (`vite.config.mjs`, `tailwind.config.js`). They contain no logic.

=== FILE: auth_store.dfy ===
/** The session store: access and refresh tokens, the signed-in user and the
    last error, written through to the browser's key-value storage. Every
    remote call is an input `Response`; `router.push` is recorded, not run. */
module AuthStore {
  import opened Wrappers

  /** The seven-field user projection kept in memory and in storage. */
  datatype User = User(id: int, username: string, email: string, firstName: string,
                       lastName: string, gender: string, image: string)

  /** A storage value. Tokens are stored as text; the `user` entry holds the JSON
      text of a User, which is modelled as the record it encodes. */
  datatype Stored = Text(text: string) | UserJson(user: User)

  type Storage = map<string, Stored>

  const AccessTokenKey: string := "accessToken"
  const RefreshTokenKey: string := "refreshToken"
  const UserKey: string := "user"
  /** The single-token key of an earlier scheme; only logout touches it. */
  const LegacyTokenKey: string := "token"
  const SessionKeys: set<string> := {AccessTokenKey, RefreshTokenKey, UserKey, LegacyTokenKey}

  const LoginPath: string := "/login"
  const ProductsPath: string := "/products"

  const CredentialsRequired: string := "Username and password are required"
  const LoginFailed: string := "Login failed. Please check your credentials."

  datatype Session = Session(accessToken: Option<string>, refreshToken: Option<string>,
                             user: Option<User>, error: Option<string>, loading: bool)

  /** The store together with the storage it writes through to. */
  datatype Client = Client(session: Session, storage: Storage)

  /** What an action leaves behind: the client, the action's return value and
      the path it handed to the router, if any. */
  datatype Step<+T> = Step(client: Client, value: T, pushed: Option<string>)

  /** Body of a successful login response. */
  datatype LoginReply = LoginReply(accessToken: string, refreshToken: string, id: int,
                                   username: string, email: string, firstName: string,
                                   lastName: string, gender: string, image: string)

  /** Body of a successful refresh response. */
  datatype TokenPair = TokenPair(accessToken: string, refreshToken: string)

  predicate IsAuthenticated(s: Session)
    ensures IsAuthenticated(s) <==> s.accessToken.Some? && |s.accessToken.value| > 0
  {
    Truthy(s.accessToken)
  }

  /** The three credential fields agree. */
  predicate SameCredentials(a: Session, b: Session) {
    a.accessToken == b.accessToken && a.refreshToken == b.refreshToken && a.user == b.user
  }

  /** Every key outside `keys` has the same entry, or the same absence, in both. */
  ghost predicate Untouched(st: Storage, st': Storage, keys: set<string>) {
    forall k :: k !in keys ==> (k in st <==> k in st') && (k in st ==> st[k] == st'[k])
  }

  predicate TokenMirrored(st: Storage, key: string, t: Option<string>) {
    match t
    case Some(v) => key in st && st[key] == Text(v)
    case None => key !in st
  }

  predicate UserMirrored(st: Storage, u: Option<User>) {
    match u
    case Some(v) => UserKey in st && st[UserKey] == UserJson(v)
    case None => UserKey !in st
  }

  /** Storage holds exactly what memory holds: each held value under its key,
      no entry for an absent one. */
  predicate Mirrors(c: Client) {
    && TokenMirrored(c.storage, AccessTokenKey, c.session.accessToken)
    && TokenMirrored(c.storage, RefreshTokenKey, c.session.refreshToken)
    && UserMirrored(c.storage, c.session.user)
  }

  /** `getItem(key)` where a token is expected; the empty string reads as absent. */
  function StoredToken(st: Storage, key: string): (r: Option<string>)
    ensures r.Some? ==> key in st && st[key] == Text(r.value) && r.value != ""
    ensures r.None? ==> key !in st || st[key].UserJson? || st[key] == Text("")
  {
    if key in st && st[key].Text? && st[key].text != "" then Some(st[key].text) else None
  }

  function StoredUser(st: Storage): (r: Option<User>)
    ensures r.Some? ==> UserKey in st && st[UserKey] == UserJson(r.value)
    ensures r.None? ==> UserKey !in st || st[UserKey].Text?
  {
    if UserKey in st && st[UserKey].UserJson? then Some(st[UserKey].user) else None
  }

  const SignedOut: Session := Session(None, None, None, None, false)

  /** The store's initial state: each field taken from storage when storage
      holds a usable value for it, null otherwise. */
  function Load(st: Storage): (c: Client)
    ensures c.storage == st
    ensures c.session.error.None? && !c.session.loading
    ensures c.session.accessToken.Some? <==> StoredToken(st, AccessTokenKey).Some?
    ensures c.session.accessToken.Some? ==> st[AccessTokenKey] == Text(c.session.accessToken.value)
    ensures c.session.refreshToken.Some? <==> StoredToken(st, RefreshTokenKey).Some?
    ensures c.session.refreshToken.Some? ==> st[RefreshTokenKey] == Text(c.session.refreshToken.value)
    ensures c.session.user.Some? <==> StoredUser(st).Some?
    ensures c.session.user.Some? ==> st[UserKey] == UserJson(c.session.user.value)
  {
    Client(Session(StoredToken(st, AccessTokenKey), StoredToken(st, RefreshTokenKey),
                   StoredUser(st), None, false), st)
  }

  /** Additive rehydration: a field is overwritten when storage holds a usable
      value for it and kept otherwise; storage itself is only read. */
  function RestoreSession(c: Client): (r: Client)
    ensures r.storage == c.storage
    ensures r.session.error == c.session.error && r.session.loading == c.session.loading
    ensures StoredToken(c.storage, AccessTokenKey).Some? ==> r.session.accessToken == StoredToken(c.storage, AccessTokenKey)
    ensures StoredToken(c.storage, AccessTokenKey).None? ==> r.session.accessToken == c.session.accessToken
    ensures StoredToken(c.storage, RefreshTokenKey).Some? ==> r.session.refreshToken == StoredToken(c.storage, RefreshTokenKey)
    ensures StoredToken(c.storage, RefreshTokenKey).None? ==> r.session.refreshToken == c.session.refreshToken
    ensures StoredUser(c.storage).Some? ==> r.session.user == StoredUser(c.storage)
    ensures StoredUser(c.storage).None? ==> r.session.user == c.session.user
    ensures c.session.accessToken.Some? ==> r.session.accessToken.Some?
    ensures c.session.refreshToken.Some? ==> r.session.refreshToken.Some?
    ensures c.session.user.Some? ==> r.session.user.Some?
  {
    var s := c.session;
    var access := StoredToken(c.storage, AccessTokenKey);
    var refresh := StoredToken(c.storage, RefreshTokenKey);
    var user := StoredUser(c.storage);
    var s1 := if access.Some? then s.(accessToken := access) else s;
    var s2 := if refresh.Some? then s1.(refreshToken := refresh) else s1;
    var s3 := if user.Some? then s2.(user := user) else s2;
    Client(s3, c.storage)
  }

  /** Clears the three credential fields, drops their storage entries and the
      legacy token entry, and navigates to the login page. */
  function Logout(c: Client): (r: Step<()>)
    ensures r.client.session.accessToken.None? && r.client.session.refreshToken.None?
    ensures r.client.session.user.None?
    ensures r.client.session.error == c.session.error && r.client.session.loading == c.session.loading
    ensures forall k :: k in r.client.storage <==> k in c.storage && k !in SessionKeys
    ensures Untouched(c.storage, r.client.storage, SessionKeys)
    ensures Mirrors(r.client) && !IsAuthenticated(r.client.session)
    ensures r.pushed == Some(LoginPath)
  {
    var s := c.session.(accessToken := None, refreshToken := None, user := None);
    Step(Client(s, c.storage - SessionKeys), (), Some(LoginPath))
  }

  /** Signs in. Empty credentials are refused locally without a request; a
      successful response sets and persists both tokens and the user
      projection; a failed one records a message and changes nothing else. */
  function Login(c: Client, username: string, password: string, reply: Response<LoginReply>): (r: Step<()>)
    ensures (username == "" || password == "") ==>
      && SameCredentials(r.client.session, c.session) && r.client.storage == c.storage
      && r.client.session.error == Some(CredentialsRequired)
      && r.client.session.loading == c.session.loading && r.pushed.None?
    ensures username != "" && password != "" && reply.Ok? ==>
      && r.client.session.accessToken == Some(reply.data.accessToken)
      && r.client.session.refreshToken == Some(reply.data.refreshToken)
      && r.client.session.user == Some(User(reply.data.id, reply.data.username, reply.data.email,
                                            reply.data.firstName, reply.data.lastName,
                                            reply.data.gender, reply.data.image))
      && Mirrors(r.client)
      && Untouched(c.storage, r.client.storage, {AccessTokenKey, RefreshTokenKey, UserKey})
      && r.client.session.error.None? && !r.client.session.loading
      && r.pushed == Some(ProductsPath)
    ensures username != "" && password != "" && reply.Err? ==>
      && SameCredentials(r.client.session, c.session) && r.client.storage == c.storage
      && r.client.session.error == Some(ErrorText(reply.message, LoginFailed))
      && !r.client.session.loading && r.pushed.None?
  {
    if username == "" || password == "" then
      Step(c.(session := c.session.(error := Some(CredentialsRequired))), (), None)
    else
      match reply
      case Ok(d) =>
        var user := User(d.id, d.username, d.email, d.firstName, d.lastName, d.gender, d.image);
        var s := c.session.(accessToken := Some(d.accessToken), refreshToken := Some(d.refreshToken),
                            user := Some(user), error := None, loading := false);
        var st := c.storage[AccessTokenKey := Text(d.accessToken)]
                           [RefreshTokenKey := Text(d.refreshToken)]
                           [UserKey := UserJson(user)];
        Step(Client(s, st), (), Some(ProductsPath))
      case Err(m) =>
        Step(c.(session := c.session.(error := Some(ErrorText(m, LoginFailed)), loading := false)), (), None)
  }

  /** Exchanges the refresh token for a new pair. Without a refresh token it
      does nothing; on success it replaces and persists both tokens; on
      failure it logs out. Returns whether the tokens were renewed. */
  function RefreshSession(c: Client, reply: Response<TokenPair>): (r: Step<bool>)
    ensures !Truthy(c.session.refreshToken) ==> r == Step(c, false, None)
    ensures Truthy(c.session.refreshToken) && reply.Ok? ==>
      && r.value
      && r.client.session == c.session.(accessToken := Some(reply.data.accessToken),
                                        refreshToken := Some(reply.data.refreshToken))
      && TokenMirrored(r.client.storage, AccessTokenKey, r.client.session.accessToken)
      && TokenMirrored(r.client.storage, RefreshTokenKey, r.client.session.refreshToken)
      && Untouched(c.storage, r.client.storage, {AccessTokenKey, RefreshTokenKey})
      && r.pushed.None?
    ensures Truthy(c.session.refreshToken) && reply.Err? ==> r == Step(Logout(c).client, false, Logout(c).pushed)
  {
    if !Truthy(c.session.refreshToken) then Step(c, false, None)
    else
      match reply
      case Ok(p) =>
        var s := c.session.(accessToken := Some(p.accessToken), refreshToken := Some(p.refreshToken));
        var st := c.storage[AccessTokenKey := Text(p.accessToken)][RefreshTokenKey := Text(p.refreshToken)];
        Step(Client(s, st), true, None)
      case Err(_) =>
        var out := Logout(c);
        Step(out.client, false, out.pushed)
  }

  /** Fetches the profile for the current access token. Without a token it
      does nothing; on success it replaces and persists the user; on failure
      it attempts one refresh and reports no user, without fetching again. */
  function GetCurrentUser(c: Client, me: Response<User>, refresh: Response<TokenPair>): (r: Step<Option<User>>)
    ensures !IsAuthenticated(c.session) ==> r == Step(c, None, None)
    ensures IsAuthenticated(c.session) && me.Ok? ==>
      && r.value == Some(me.data)
      && r.client.session == c.session.(user := Some(me.data))
      && UserMirrored(r.client.storage, r.client.session.user)
      && Untouched(c.storage, r.client.storage, {UserKey})
      && r.pushed.None?
    ensures IsAuthenticated(c.session) && me.Err? ==>
      && r.value.None?
      && r.client == RefreshSession(c, refresh).client
      && r.pushed == RefreshSession(c, refresh).pushed
  {
    if !IsAuthenticated(c.session) then Step(c, None, None)
    else
      match me
      case Ok(u) =>
        Step(Client(c.session.(user := Some(u)), c.storage[UserKey := UserJson(u)]), Some(u), None)
      case Err(_) =>
        var out := RefreshSession(c, refresh);
        Step(out.client, None, out.pushed)
  }

  // ---------------------------------------------------------------------------
  // Properties relating several actions
  // ---------------------------------------------------------------------------

  /** A login with an empty credential sends nothing: its effect does not
      depend on what the server would have answered. */
  lemma LoginWithoutCredentialsSendsNothing(c: Client, username: string, password: string,
                                            a: Response<LoginReply>, b: Response<LoginReply>)
    requires username == "" || password == ""
    ensures Login(c, username, password, a) == Login(c, username, password, b)
    ensures !IsAuthenticated(Login(c, username, password, a).client.session) <==> !IsAuthenticated(c.session)
  {
  }

  /** A successful login authenticates exactly when the returned access token is non-empty. */
  lemma LoginAuthenticates(c: Client, username: string, password: string, d: LoginReply)
    requires username != "" && password != ""
    ensures IsAuthenticated(Login(c, username, password, Ok(d)).client.session) <==> d.accessToken != ""
  {
  }

  /** Logging out twice is the same as logging out once. */
  lemma LogoutIdempotent(c: Client)
    ensures Logout(Logout(c).client) == Logout(c)
  {
  }

  /** Rehydration cannot undo a logout: the entries it would read are gone. */
  lemma RestoreAfterLogoutStaysSignedOut(c: Client)
    ensures RestoreSession(Logout(c).client) == Logout(c).client
  {
  }

  /** Rehydrating twice is the same as rehydrating once. */
  lemma RestoreIdempotent(c: Client)
    ensures RestoreSession(RestoreSession(c)) == RestoreSession(c)
  {
  }

  /** The initial state is what rehydration makes of a signed-out store. */
  lemma LoadIsRestoreOfSignedOut(st: Storage)
    ensures Load(st) == RestoreSession(Client(SignedOut, st))
  {
  }

  /** Rehydration works field by field, so it can produce a session holding an
      access token but no user. */
  lemma RestoreMayLeavePartialSession()
    ensures var c := RestoreSession(Client(SignedOut, map[AccessTokenKey := Text("t")]));
            IsAuthenticated(c.session) && c.session.user.None? && c.session.refreshToken.None?
  {
  }

  /** When storage mirrors memory, rehydration changes nothing. */
  lemma RestoreKeepsMirroredClient(c: Client)
    requires Mirrors(c)
    ensures RestoreSession(c) == c
  {
  }

  /** Every action keeps storage mirroring memory. */
  lemma ActionsKeepMirror(c: Client, username: string, password: string, login: Response<LoginReply>,
                          me: Response<User>, refresh: Response<TokenPair>)
    requires Mirrors(c)
    ensures Mirrors(Login(c, username, password, login).client)
    ensures Mirrors(RefreshSession(c, refresh).client)
    ensures Mirrors(GetCurrentUser(c, me, refresh).client)
    ensures Mirrors(Logout(c).client)
    ensures Mirrors(RestoreSession(c))
  {
  }
}

=== FILE: js_number.dfy ===
/** The two number/string conversions the stores depend on: an integer's
    decimal text (`toString`) and the number a piece of text denotes (`Number`). */
module JsNumber {
  import opened Wrappers

  predicate IsDigit(c: char) {
    '0' <= c <= '9'
  }

  predicate AllDigits(s: string) {
    forall i :: 0 <= i < |s| ==> IsDigit(s[i])
  }

  function DigitChar(d: nat): (c: char)
    requires d < 10
    ensures IsDigit(c) && c as int - '0' as int == d
  {
    ('0' as int + d) as char
  }

  /** The value of a run of decimal digits, most significant first. */
  function DigitsValue(s: string): nat
    requires AllDigits(s)
  {
    if |s| == 0 then 0
    else DigitsValue(s[..|s| - 1]) * 10 + (s[|s| - 1] as int - '0' as int)
  }

  /** Decimal text of a non-negative integer: digits only, never a leading zero. */
  function NatToString(n: nat): (s: string)
    ensures |s| > 0 && AllDigits(s)
    ensures s[0] == '0' ==> n == 0
    ensures n == 0 ==> s == "0"
    decreases n
  {
    if n < 10 then [DigitChar(n)] else NatToString(n / 10) + [DigitChar(n % 10)]
  }

  /** `n.toString()` for an integer-valued number `n`, written in full decimal:
      a minus sign exactly for negatives, followed by the magnitude's digits,
      with no leading zero. */
  function IntToString(n: int): (s: string)
    ensures |s| > 0
    ensures s[0] == '-' <==> n < 0
    ensures n >= 0 ==> AllDigits(s) && DigitsValue(s) == n
    ensures n < 0 ==> |s| > 1 && AllDigits(s[1..]) && DigitsValue(s[1..]) == -n
    ensures n >= 0 && s[0] == '0' ==> n == 0
    ensures n == 0 ==> s == "0"
    ensures n < 0 ==> s[1] != '0'
  {
    if n < 0 then
      NatToStringRoundTrip(-n);
      assert ("-" + NatToString(-n))[1..] == NatToString(-n);
      "-" + NatToString(-n)
    else
      NatToStringRoundTrip(n);
      NatToString(n)
  }

  /** `Number(text)`: the empty text is 0, an optionally signed run of decimal
      digits is its value, and anything else is NaN (`None`), which is equal to
      no number at all. */
  function ParseNumber(t: string): (r: Option<int>)
    ensures t == "" ==> r == Some(0)
    ensures t != "" && AllDigits(t) ==> r == Some(DigitsValue(t))
    ensures |t| > 1 && t[0] == '-' && AllDigits(t[1..]) ==> r.Some? && r.value + DigitsValue(t[1..]) == 0
    ensures |t| > 1 && t[0] == '+' && AllDigits(t[1..]) ==> r == Some(DigitsValue(t[1..]))
    ensures r.None? <==> t != "" && !AllDigits(t) && !(|t| > 1 && (t[0] == '-' || t[0] == '+') && AllDigits(t[1..]))
  {
    if t == "" then Some(0)
    else if (t[0] == '-' || t[0] == '+') && |t| > 1 && AllDigits(t[1..]) then
      var magnitude: int := DigitsValue(t[1..]);
      Some(if t[0] == '-' then -magnitude else magnitude)
    else if AllDigits(t) then Some(DigitsValue(t))
    else None
  }

  lemma {:induction false} NatToStringRoundTrip(n: nat)
    ensures DigitsValue(NatToString(n)) == n
    decreases n
  {
    if n >= 10 {
      var prefix := NatToString(n / 10);
      var s := NatToString(n);
      assert s == prefix + [DigitChar(n % 10)];
      assert s[..|s| - 1] == prefix;
      NatToStringRoundTrip(n / 10);
    }
  }

  /** Reading back the text an integer prints as gives that integer. */
  lemma IntToStringRoundTrip(n: int)
    ensures ParseNumber(IntToString(n)) == Some(n)
  {
    var t := IntToString(n);
    if n < 0 {
      NatToStringRoundTrip(-n);
      assert t[1..] == NatToString(-n);
    } else {
      NatToStringRoundTrip(n);
    }
  }
}

=== FILE: product_store.dfy ===
/** The catalog store: the query the user has composed (search text, category,
    sort, page) and the listing the server returned for it. Every remote call
    is an input `Response`; the request `fetchProducts` would send is computed
    by `ProductsRequest`. */
module ProductStore {
  import opened Wrappers
  import opened JsNumber
  import AuthStore

  /** A product as the server sends it: the store reads only the numeric `id`;
      every other field passes through untouched. */
  datatype Product = Product(id: int, fields: map<string, string>)

  /** Body of a listing response: one page of products and the number of
      products matching the query. */
  datatype Listing = Listing(products: seq<Product>, total: int)

  datatype Store = Store(
    products: seq<Product>,
    categories: seq<string>,
    isLoading: bool,
    error: Option<string>,
    searchQuery: string,
    selectedCategory: string,
    sortBy: string,
    sortOrder: string,
    currentPage: int,
    itemsPerPage: int,
    total: int)

  /** What an action leaves behind: the store and the action's return value. */
  datatype Reply<+T> = Reply(store: Store, value: T)

  /** The id an action is called with: a number, or text such as a route parameter. */
  datatype Key = NumKey(n: int) | TextKey(text: string)

  const AllCategories: string := "all"
  const DefaultOrder: string := "asc"
  const PageSize: int := 12

  const LoadFailed: string := "Failed to load products"
  const FetchFailed: string := "Failed to fetch product"
  const AddFailed: string := "Failed to add product"
  const UpdateFailed: string := "Failed to update product"
  const DeleteFailed: string := "Failed to delete product"

  const Initial: Store := Store([], [], false, None, "", AllCategories, "title", DefaultOrder, 1, PageSize, 0)

  /** The query fields agree (the page size is one of them). */
  predicate SameQuery(a: Store, b: Store) {
    && a.searchQuery == b.searchQuery && a.selectedCategory == b.selectedCategory
    && a.sortBy == b.sortBy && a.sortOrder == b.sortOrder
    && a.currentPage == b.currentPage && a.itemsPerPage == b.itemsPerPage
  }

  /** The listing fields agree. */
  predicate SameListing(a: Store, b: Store) {
    && a.products == b.products && a.total == b.total && a.categories == b.categories
    && a.isLoading == b.isLoading && a.error == b.error
  }

  // ---------------------------------------------------------------------------
  // Getters
  // ---------------------------------------------------------------------------

  /** Number of pages needed to show `total` products: the ceiling of
      `total / itemsPerPage`. */
  function TotalPages(s: Store): (n: int)
    requires s.itemsPerPage > 0
    ensures (n - 1) * s.itemsPerPage < s.total <= n * s.itemsPerPage
    ensures s.total >= 0 ==> n >= 0
  {
    var d := s.itemsPerPage;
    var n := (s.total + d - 1) / d;
    assert n * d <= s.total + d - 1 < (n + 1) * d;
    n
  }

  /** Number of products on the pages before the current one. */
  function Skip(s: Store): (k: int)
    ensures s.currentPage >= 1 && s.itemsPerPage >= 0 ==> k >= 0
    ensures s.currentPage == 1 ==> k == 0
  {
    (s.currentPage - 1) * s.itemsPerPage
  }

  /** The page after the current one starts exactly one page further on. */
  lemma NextPageFollows(s: Store)
    ensures Skip(s.(currentPage := s.currentPage + 1)) == Skip(s) + s.itemsPerPage
  {
  }

  /** For any page from 1 to `TotalPages`, the window the server is asked for
      starts inside the matching products. */
  lemma PageWindowInRange(s: Store)
    requires s.itemsPerPage > 0
    requires 1 <= s.currentPage <= TotalPages(s)
    ensures 0 <= Skip(s) < s.total
  {
  }

  /** Worked example: 25 products at 12 per page need 3 pages. */
  lemma TotalPagesExample()
    ensures TotalPages(Initial.(total := 25)) == 3
  {
  }

  // ---------------------------------------------------------------------------
  // Setters
  // ---------------------------------------------------------------------------

  function SetSearchQuery(s: Store, query: string): (r: Store)
    ensures r.searchQuery == query && r.currentPage == 1
    ensures r.selectedCategory == s.selectedCategory && r.sortBy == s.sortBy
    ensures r.sortOrder == s.sortOrder && r.itemsPerPage == s.itemsPerPage
    ensures SameListing(r, s)
  {
    s.(searchQuery := query, currentPage := 1)
  }

  function SetCategory(s: Store, category: string): (r: Store)
    ensures r.selectedCategory == category && r.currentPage == 1
    ensures r.searchQuery == s.searchQuery && r.sortBy == s.sortBy
    ensures r.sortOrder == s.sortOrder && r.itemsPerPage == s.itemsPerPage
    ensures SameListing(r, s)
  {
    s.(selectedCategory := category, currentPage := 1)
  }

  /** `order` is `None` when the caller omits it, which selects ascending order. */
  function SetSorting(s: Store, field: string, order: Option<string>): (r: Store)
    ensures r.sortBy == field && r.currentPage == 1
    ensures order.Some? ==> r.sortOrder == order.value
    ensures order.None? ==> r.sortOrder == DefaultOrder
    ensures r.searchQuery == s.searchQuery && r.selectedCategory == s.selectedCategory
    ensures r.itemsPerPage == s.itemsPerPage
    ensures SameListing(r, s)
  {
    s.(sortBy := field, sortOrder := order.GetOr(DefaultOrder), currentPage := 1)
  }

  function SetPage(s: Store, page: int): (r: Store)
    ensures r.currentPage == page
    ensures r.searchQuery == s.searchQuery && r.selectedCategory == s.selectedCategory
    ensures r.sortBy == s.sortBy && r.sortOrder == s.sortOrder && r.itemsPerPage == s.itemsPerPage
    ensures SameListing(r, s)
  {
    s.(currentPage := page)
  }

  // ---------------------------------------------------------------------------
  // Categories
  // ---------------------------------------------------------------------------

  /** The category list always starts with `all`, followed by the fetched
      names, or by nothing when the fetch fails. */
  function FetchCategories(s: Store, reply: Response<seq<string>>): (r: Store)
    ensures |r.categories| >= 1 && r.categories[0] == AllCategories
    ensures reply.Ok? ==> r.categories[1..] == reply.data
    ensures reply.Err? ==> r.categories == [AllCategories]
    ensures r.(categories := s.categories) == s
  {
    match reply
    case Ok(names) => s.(categories := [AllCategories] + names)
    case Err(_) => s.(categories := [AllCategories])
  }

  // ---------------------------------------------------------------------------
  // The listing request
  // ---------------------------------------------------------------------------

  /** The three listing endpoints: full-text search, one category, or all products. */
  datatype Endpoint = Search(query: string) | InCategory(category: string) | Everything

  datatype Param = Param(name: string, value: string)

  /** A listing request: the endpoint, the character joining its base URL to
      the parameters, the parameters in order, and the bearer token sent, if any. */
  datatype Request = Request(endpoint: Endpoint, separator: char, params: seq<Param>, bearer: Option<string>)

  /** Whether the endpoint's base URL already carries a query string. Only the
      search URL does (`?q=`); a category name cannot contribute a `?`, since it
      is percent-encoded into the path. */
  predicate HasQuery(e: Endpoint) {
    e.Search?
  }

  /** The value of the first parameter called `name`, as `URLSearchParams.get` reads it. */
  function Lookup(ps: seq<Param>, name: string): (r: Option<string>)
    ensures r.Some? ==> exists i :: 0 <= i < |ps| && ps[i] == Param(name, r.value) &&
                                   forall j :: 0 <= j < i ==> ps[j].name != name
    ensures r.None? ==> forall i :: 0 <= i < |ps| ==> ps[i].name != name
  {
    if |ps| == 0 then None
    else if ps[0].name == name then Some(ps[0].value)
    else Lookup(ps[1..], name)
  }

  /** The parameters as `URLSearchParams.toString` joins them. Form-encoding of
      names and values is not modelled. */
  function QueryString(ps: seq<Param>): (r: string)
    ensures r == "" <==> |ps| == 0
    ensures |ps| > 0 ==> ps[0].name + "=" + ps[0].value <= r
    ensures |ps| == 1 ==> r == ps[0].name + "=" + ps[0].value
  {
    if |ps| == 0 then ""
    else if |ps| == 1 then ps[0].name + "=" + ps[0].value
    else ps[0].name + "=" + ps[0].value + "&" + QueryString(ps[1..])
  }

  /** The bearer token a request carries: the access token when it is truthy. */
  function Bearer(session: AuthStore.Session): (r: Option<string>)
    ensures r.Some? <==> AuthStore.IsAuthenticated(session)
    ensures r.Some? ==> session.accessToken == Some(r.value)
  {
    if AuthStore.IsAuthenticated(session) then session.accessToken else None
  }

  /** The request `fetchProducts` sends for the store's current query. */
  function ProductsRequest(s: Store, session: AuthStore.Session): (r: Request)
    ensures s.searchQuery != "" ==> r.endpoint == Search(s.searchQuery)
    ensures (s.searchQuery == "" && s.selectedCategory != "" && s.selectedCategory != AllCategories) ==>
              r.endpoint == InCategory(s.selectedCategory)
    ensures r.endpoint == Everything <==>
              s.searchQuery == "" && (s.selectedCategory == "" || s.selectedCategory == AllCategories)
    ensures r.separator == '&' <==> s.searchQuery != ""
    ensures r.separator == '?' <==> s.searchQuery == ""
    ensures |r.params| >= 2 && r.params[0].name == "limit" && r.params[1].name == "skip"
    ensures r.bearer == Bearer(session)
  {
    var paging := [Param("limit", IntToString(s.itemsPerPage)), Param("skip", IntToString(Skip(s)))];
    var params := if s.sortBy != "" then paging + [Param("sortBy", s.sortBy), Param("order", s.sortOrder)] else paging;
    var endpoint :=
      if s.searchQuery != "" then Search(s.searchQuery)
      else if s.selectedCategory != "" && s.selectedCategory != AllCategories then InCategory(s.selectedCategory)
      else Everything;
    Request(endpoint, if HasQuery(endpoint) then '&' else '?', params, Bearer(session))
  }

  /** `Lookup` passes over a parameter with another name. */
  lemma LookupPast(p: Param, ps: seq<Param>, name: string)
    requires p.name != name
    ensures Lookup([p] + ps, name) == Lookup(ps, name)
  {
  }

  /** The request always carries the page size as `limit` and the offset as
      `skip`; it carries `sortBy` and `order` exactly when a sort field is set. */
  lemma RequestParams(s: Store, session: AuthStore.Session)
    ensures var ps := ProductsRequest(s, session).params;
      && Lookup(ps, "limit") == Some(IntToString(s.itemsPerPage))
      && Lookup(ps, "skip") == Some(IntToString(Skip(s)))
      && (Lookup(ps, "sortBy").Some? <==> s.sortBy != "")
      && (Lookup(ps, "order").Some? <==> s.sortBy != "")
      && (s.sortBy != "" ==> Lookup(ps, "sortBy") == Some(s.sortBy) && Lookup(ps, "order") == Some(s.sortOrder))
  {
    var ps := ProductsRequest(s, session).params;
    var tail := if s.sortBy != "" then [Param("sortBy", s.sortBy), Param("order", s.sortOrder)] else [];
    PagingParams(s, ps, tail);
    SortingParams(s, tail);
  }

  /** The paging parameters come first, and the sorting ones are read from
      what follows them. */
  lemma PagingParams(s: Store, ps: seq<Param>, tail: seq<Param>)
    requires ps == [Param("limit", IntToString(s.itemsPerPage)), Param("skip", IntToString(Skip(s)))] + tail
    ensures Lookup(ps, "limit") == Some(IntToString(s.itemsPerPage))
    ensures Lookup(ps, "skip") == Some(IntToString(Skip(s)))
    ensures Lookup(ps, "sortBy") == Lookup(tail, "sortBy")
    ensures Lookup(ps, "order") == Lookup(tail, "order")
  {
    var limit := Param("limit", IntToString(s.itemsPerPage));
    var skip := Param("skip", IntToString(Skip(s)));
    assert ps == [limit] + ([skip] + tail);
    LookupPast(limit, [skip] + tail, "skip");
    LookupPast(limit, [skip] + tail, "sortBy");
    LookupPast(skip, tail, "sortBy");
    LookupPast(limit, [skip] + tail, "order");
    LookupPast(skip, tail, "order");
  }

  /** What the sorting parameters contribute. */
  lemma SortingParams(s: Store, tail: seq<Param>)
    requires tail == if s.sortBy != "" then [Param("sortBy", s.sortBy), Param("order", s.sortOrder)] else []
    ensures Lookup(tail, "sortBy").Some? <==> s.sortBy != ""
    ensures Lookup(tail, "order").Some? <==> s.sortBy != ""
    ensures s.sortBy != "" ==> Lookup(tail, "sortBy") == Some(s.sortBy) && Lookup(tail, "order") == Some(s.sortOrder)
  {
    if s.sortBy != "" {
      LookupPast(Param("sortBy", s.sortBy), [Param("order", s.sortOrder)], "order");
    }
  }

  /** The request carries no parameter beyond these: `limit` and `skip`, then
      `sortBy` and `order` when a sort field is set. */
  lemma RequestParamCount(s: Store, session: AuthStore.Session)
    ensures |ProductsRequest(s, session).params| == if s.sortBy != "" then 4 else 2
    ensures s.sortBy != "" ==>
              ProductsRequest(s, session).params[2] == Param("sortBy", s.sortBy) &&
              ProductsRequest(s, session).params[3] == Param("order", s.sortOrder)
  {
  }

  /** A search ignores the selected category entirely. */
  lemma SearchIgnoresCategory(s: Store, category: string, session: AuthStore.Session)
    requires s.searchQuery != ""
    ensures ProductsRequest(s.(selectedCategory := category), session) == ProductsRequest(s, session)
  {
  }

  /** After any setter that resets pagination, the request asks for the first page. */
  lemma ResetSettersRequestFirstPage(s: Store, text: string, order: Option<string>, session: AuthStore.Session)
    ensures Lookup(ProductsRequest(SetSearchQuery(s, text), session).params, "skip") == Some("0")
    ensures Lookup(ProductsRequest(SetCategory(s, text), session).params, "skip") == Some("0")
    ensures Lookup(ProductsRequest(SetSorting(s, text, order), session).params, "skip") == Some("0")
  {
  }

  /** `QueryString` joins `name=value` pairs with `&`. */
  lemma QueryStringCons(p: Param, ps: seq<Param>)
    requires |ps| > 0
    ensures QueryString([p] + ps) == p.name + "=" + p.value + "&" + QueryString(ps)
  {
  }

  /** The parameters of the initial query, in the order they are appended. */
  lemma InitialParams(session: AuthStore.Session)
    ensures ProductsRequest(Initial, session).params
              == [Param("limit", "12"), Param("skip", "0"), Param("sortBy", "title"), Param("order", "asc")]
  {
    assert IntToString(12) == "12" by {
      assert NatToString(1) == "1";
    }
    assert IntToString(0) == "0";
  }

  /** How the last two initial parameters render. */
  lemma QueryStringTwo()
    ensures QueryString([Param("sortBy", "title"), Param("order", "asc")]) == "sortBy=title&order=asc"
  {
  }

  /** How the last three initial parameters render. */
  lemma QueryStringThree()
    ensures QueryString([Param("skip", "0"), Param("sortBy", "title"), Param("order", "asc")])
              == "skip=0&sortBy=title&order=asc"
  {
    var tail := [Param("sortBy", "title"), Param("order", "asc")];
    assert [Param("skip", "0")] + tail == [Param("skip", "0"), Param("sortBy", "title"), Param("order", "asc")];
    QueryStringCons(Param("skip", "0"), tail);
    QueryStringTwo();
    assert "skip" + "=" + "0" + "&" + "sortBy=title&order=asc" == "skip=0&sortBy=title&order=asc" by {
      JoinSkip();
    }
  }

  /** The text join behind `QueryStringThree`. */
  lemma JoinSkip()
    ensures "skip" + "=" + "0" + "&" + "sortBy=title&order=asc" == "skip=0&sortBy=title&order=asc"
  {
  }

  /** How the initial parameters render. */
  lemma InitialQueryString()
    ensures QueryString([Param("limit", "12"), Param("skip", "0"), Param("sortBy", "title"), Param("order", "asc")])
              == "limit=12&skip=0&sortBy=title&order=asc"
  {
    var tail := [Param("skip", "0"), Param("sortBy", "title"), Param("order", "asc")];
    assert [Param("limit", "12")] + tail == [Param("limit", "12"), Param("skip", "0"), Param("sortBy", "title"), Param("order", "asc")];
    QueryStringCons(Param("limit", "12"), tail);
    QueryStringThree();
    JoinLimit();
  }

  /** The text join behind `InitialQueryString`. */
  lemma JoinLimit()
    ensures "limit" + "=" + "12" + "&" + "skip=0&sortBy=title&order=asc" == "limit=12&skip=0&sortBy=title&order=asc"
  {
  }

  /** The initial query lists all products sorted by title, first page of 12. */
  lemma InitialRequest(session: AuthStore.Session)
    ensures ProductsRequest(Initial, session).endpoint == Everything
    ensures ProductsRequest(Initial, session).separator == '?'
    ensures QueryString(ProductsRequest(Initial, session).params) == "limit=12&skip=0&sortBy=title&order=asc"
  {
    InitialParams(session);
    InitialQueryString();
  }

  // ---------------------------------------------------------------------------
  // Listing actions
  // ---------------------------------------------------------------------------

  /** Applies the answer to `ProductsRequest`: a listing replaces products and
      total wholesale; a failure records a message and keeps the stale listing. */
  function FetchProducts(s: Store, reply: Response<Listing>): (r: Store)
    ensures !r.isLoading
    ensures SameQuery(r, s) && r.categories == s.categories
    ensures reply.Ok? ==> r.products == reply.data.products && r.total == reply.data.total && r.error.None?
    ensures reply.Err? ==> r.products == s.products && r.total == s.total
    ensures reply.Err? ==> r.error == Some(ErrorText(reply.message, LoadFailed))
  {
    match reply
    case Ok(l) => s.(products := l.products, total := l.total, error := None, isLoading := false)
    case Err(m) => s.(error := Some(ErrorText(m, LoadFailed)), isLoading := false)
  }

  /** Fetches one product; the listing is never touched. */
  function FetchProductById(s: Store, reply: Response<Product>): (r: Reply<Option<Product>>)
    ensures r.store.products == s.products && r.store.total == s.total
    ensures SameQuery(r.store, s) && r.store.categories == s.categories && !r.store.isLoading
    ensures reply.Ok? ==> r.value == Some(reply.data) && r.store.error.None?
    ensures reply.Err? ==> r.value.None? && r.store.error == Some(ErrorText(reply.message, FetchFailed))
  {
    match reply
    case Ok(p) => Reply(s.(error := None, isLoading := false), Some(p))
    case Err(m) => Reply(s.(error := Some(ErrorText(m, FetchFailed)), isLoading := false), None)
  }

  /** Creates a product and, on success, refetches the listing for the current
      query (answered by `refetch`) instead of inserting locally. Returns the
      created record whatever the refetch did. */
  function AddProduct(s: Store, created: Response<Product>, refetch: Response<Listing>): (r: Reply<Option<Product>>)
    ensures created.Ok? ==> r.value == Some(created.data) && r.store == FetchProducts(s, refetch)
    ensures created.Err? ==> r.value.None? && r.store.products == s.products && r.store.total == s.total
    ensures created.Err? ==> r.store.error == Some(ErrorText(created.message, AddFailed))
    ensures SameQuery(r.store, s) && r.store.categories == s.categories && !r.store.isLoading
  {
    var started := s.(isLoading := true, error := None);
    match created
    case Ok(p) => Reply(FetchProducts(started, refetch).(isLoading := false), Some(p))
    case Err(m) => Reply(s.(error := Some(ErrorText(m, AddFailed)), isLoading := false), None)
  }

  /** The refetch after an add uses the same query as before the add. */
  lemma AddRefetchesSameQuery(s: Store, p: Product, session: AuthStore.Session, refetch: Response<Listing>)
    ensures ProductsRequest(AddProduct(s, Ok(p), refetch).store, session) == ProductsRequest(s, session)
  {
  }

  /** `Number(id)`; `None` stands for NaN. */
  function ToNumber(k: Key): Option<int> {
    match k
    case NumKey(n) => Some(n)
    case TextKey(t) => ParseNumber(t)
  }

  /** Position `j` holds the first product whose id equals `n`. */
  predicate IsFirstMatch(ps: seq<Product>, j: int, n: Option<int>)
    requires 0 <= j < |ps|
  {
    n.Some? && ps[j].id == n.value && forall k :: 0 <= k < j ==> ps[k].id != n.value
  }

  /** `findIndex` by id. */
  function FindIndex(ps: seq<Product>, id: int): (r: Option<nat>)
    ensures r.Some? ==> r.value < |ps| && ps[r.value].id == id
    ensures r.Some? ==> forall j :: 0 <= j < r.value ==> ps[j].id != id
    ensures r.None? ==> forall j :: 0 <= j < |ps| ==> ps[j].id != id
  {
    if |ps| == 0 then None
    else if ps[0].id == id then Some(0)
    else
      match FindIndex(ps[1..], id)
      case Some(k) => Some(k + 1)
      case None => None
  }

  /** Updates a product remotely and, on success, puts the returned record in
      place of the first listed product whose id equals `Number(key)`. */
  function UpdateProduct(s: Store, key: Key, reply: Response<Product>): (r: Reply<Option<Product>>)
    ensures SameQuery(r.store, s) && r.store.categories == s.categories && r.store.total == s.total
    ensures !r.store.isLoading
    ensures reply.Ok? ==> r.value == Some(reply.data) && r.store.error.None?
    ensures reply.Ok? ==> |r.store.products| == |s.products|
    ensures reply.Ok? ==> forall j :: 0 <= j < |s.products| ==>
              r.store.products[j] == (if IsFirstMatch(s.products, j, ToNumber(key)) then reply.data else s.products[j])
    ensures reply.Err? ==> r.value.None? && r.store.products == s.products
    ensures reply.Err? ==> r.store.error == Some(ErrorText(reply.message, UpdateFailed))
  {
    match reply
    case Ok(p) =>
      var products :=
        match ToNumber(key)
        case Some(n) => (match FindIndex(s.products, n) case Some(i) => s.products[i := p] case None => s.products)
        case None => s.products;
      Reply(s.(products := products, error := None, isLoading := false), Some(p))
    case Err(m) =>
      Reply(s.(error := Some(ErrorText(m, UpdateFailed)), isLoading := false), None)
  }

  /** With no listed product matching, a successful update leaves the listing as it was. */
  lemma UpdateWithoutMatchKeepsListing(s: Store, key: Key, p: Product)
    requires forall j :: 0 <= j < |s.products| ==> Some(s.products[j].id) != ToNumber(key)
    ensures UpdateProduct(s, key, Ok(p)).store.products == s.products
  {
  }

  /** An id given as the text of a number selects the same product as the number itself. */
  lemma TextKeyOfIdMatches(s: Store, id: int, reply: Response<Product>)
    ensures UpdateProduct(s, TextKey(IntToString(id)), reply) == UpdateProduct(s, NumKey(id), reply)
  {
    IntToStringRoundTrip(id);
  }

  /** `p.id !== key`'s negation: strict equality, so a text key never equals a numeric id. */
  predicate StrictlyEqual(p: Product, key: Key) {
    key.NumKey? && p.id == key.n
  }

  /** The products not strictly equal to `key`, in their original order. */
  function Without(ps: seq<Product>, key: Key): (r: seq<Product>)
    ensures |r| <= |ps|
    ensures forall p :: p in r <==> p in ps && !StrictlyEqual(p, key)
    ensures (forall i :: 0 <= i < |ps| ==> !StrictlyEqual(ps[i], key)) ==> r == ps
    ensures |ps| == 1 ==> r == (if StrictlyEqual(ps[0], key) then [] else ps)
  {
    if |ps| == 0 then []
    else (if StrictlyEqual(ps[0], key) then [] else [ps[0]]) + Without(ps[1..], key)
  }

  /** Filtering distributes over concatenation; with the one-element case this
      pins `Without` down as an order-preserving filter. */
  lemma {:induction false} WithoutAppend(xs: seq<Product>, ys: seq<Product>, key: Key)
    ensures Without(xs + ys, key) == Without(xs, key) + Without(ys, key)
    decreases |xs|
  {
    if |xs| > 0 {
      var head := if StrictlyEqual(xs[0], key) then [] else [xs[0]];
      assert (xs + ys)[0] == xs[0];
      assert (xs + ys)[1..] == xs[1..] + ys;
      assert Without(xs + ys, key) == head + Without(xs[1..] + ys, key);
      WithoutAppend(xs[1..], ys, key);
      assert Without(xs, key) == head + Without(xs[1..], key);
    } else {
      assert xs + ys == ys;
    }
  }

  /** Deletes a product remotely and, on success, drops every listed product
      whose id is strictly equal to `key` and counts one fewer match, never
      going below zero. Returns whether the deletion succeeded. */
  function DeleteProduct(s: Store, key: Key, reply: Response<()>): (r: Reply<bool>)
    ensures SameQuery(r.store, s) && r.store.categories == s.categories && !r.store.isLoading
    ensures r.value <==> reply.Ok?
    ensures reply.Ok? ==> r.store.products == Without(s.products, key)
    ensures reply.Ok? ==> forall p :: p in r.store.products <==> p in s.products && !StrictlyEqual(p, key)
    ensures reply.Ok? ==> |r.store.products| <= |s.products| && r.store.error.None?
    ensures reply.Ok? && s.total >= 1 ==> r.store.total == s.total - 1
    ensures reply.Ok? && s.total < 1 ==> r.store.total == 0
    ensures reply.Err? ==> r.store.products == s.products && r.store.total == s.total
    ensures reply.Err? ==> r.store.error == Some(ErrorText(reply.message, DeleteFailed))
  {
    match reply
    case Ok(_) =>
      var total := if s.total - 1 > 0 then s.total - 1 else 0;
      Reply(s.(products := Without(s.products, key), total := total, error := None, isLoading := false), true)
    case Err(m) =>
      Reply(s.(error := Some(ErrorText(m, DeleteFailed)), isLoading := false), false)
  }

  /** A text id never removes a listed product, yet the count still drops. */
  lemma DeleteByTextKeyKeepsListing(s: Store, t: string)
    ensures DeleteProduct(s, TextKey(t), Ok(())).store.products == s.products
    ensures s.total >= 1 ==> DeleteProduct(s, TextKey(t), Ok(())).store.total == s.total - 1
  {
  }

  /** The same text id selects a product for update but not for deletion. */
  lemma UpdateAndDeleteDisagreeOnTextIds()
    ensures var s := Initial.(products := [Product(5, map[])], total := 1);
            && UpdateProduct(s, TextKey("5"), Ok(Product(5, map["title" := "new"]))).store.products
                 == [Product(5, map["title" := "new"])]
            && DeleteProduct(s, TextKey("5"), Ok(())).store.products == s.products
  {
  }

  /** Two successful deletions from a count of one leave zero, not minus one. */
  lemma DeleteFloorsAtZero(s: Store, a: Key, b: Key)
    requires s.total == 1
    ensures DeleteProduct(DeleteProduct(s, a, Ok(())).store, b, Ok(())).store.total == 0
  {
  }

  /** No action changes the page size, so `TotalPages` stays defined. */
  lemma PageSizeIsConstant(s: Store, text: string, order: Option<string>, page: int, key: Key,
                           names: Response<seq<string>>, listing: Response<Listing>,
                           one: Response<Product>, gone: Response<()>)
    ensures SetSearchQuery(s, text).itemsPerPage == s.itemsPerPage
    ensures SetCategory(s, text).itemsPerPage == s.itemsPerPage
    ensures SetSorting(s, text, order).itemsPerPage == s.itemsPerPage
    ensures SetPage(s, page).itemsPerPage == s.itemsPerPage
    ensures FetchCategories(s, names).itemsPerPage == s.itemsPerPage
    ensures FetchProducts(s, listing).itemsPerPage == s.itemsPerPage
    ensures FetchProductById(s, one).store.itemsPerPage == s.itemsPerPage
    ensures AddProduct(s, one, listing).store.itemsPerPage == s.itemsPerPage
    ensures UpdateProduct(s, key, one).store.itemsPerPage == s.itemsPerPage
    ensures DeleteProduct(s, key, gone).store.itemsPerPage == s.itemsPerPage
  {
  }
}

=== FILE: router.dfy ===
/** The route table and the navigation guard that runs before every route
    change. The guard rehydrates the session from storage, then lets the
    navigation through or redirects it. */
module Router {
  import opened Wrappers
  import AuthStore

  /** The flags a route record carries in its `meta`. */
  datatype Meta = Meta(requiresAuth: bool, requiresGuest: bool)

  const NoMeta: Meta := Meta(false, false)

  /** A route record: a page with its meta, or a path that redirects to another. */
  datatype Route = Page(path: string, meta: Meta) | Redirect(path: string, target: string)

  const Routes: seq<Route> := [
    Page(AuthStore.LoginPath, Meta(false, true)),
    Page(AuthStore.ProductsPath, Meta(true, false)),
    Page("/products/new", Meta(true, false)),
    Page("/products/:id", Meta(true, false)),
    Redirect("/", AuthStore.ProductsPath)
  ]

  /** The first record registered under exactly `path`. */
  function Find(routes: seq<Route>, path: string): (r: Option<Route>)
    ensures r.Some? ==> r.value in routes && r.value.path == path
    ensures r.None? ==> forall i :: 0 <= i < |routes| ==> routes[i].path != path
  {
    if |routes| == 0 then None
    else if routes[0].path == path then Some(routes[0])
    else Find(routes[1..], path)
  }

  /** The meta of the page reached at `path`, after a record-level redirect;
      no flags when no page is registered there. */
  function MetaOf(path: string): (r: Meta)
    ensures Find(Routes, path).None? ==> r == NoMeta
    ensures r.requiresGuest ==> path == AuthStore.LoginPath
  {
    match Find(Routes, path)
    case Some(Page(_, m)) => m
    case Some(Redirect(_, t)) =>
      (match Find(Routes, t)
       case Some(Page(_, m)) => m
       case _ => NoMeta)
    case None => NoMeta
  }

  datatype Decision = Proceed | RedirectTo(path: string)

  /** The guard's decision for a route with meta `to`. */
  function Decide(to: Meta, authenticated: bool): (d: Decision)
    ensures d == RedirectTo(AuthStore.LoginPath) <==> to.requiresAuth && !authenticated
    ensures d == RedirectTo(AuthStore.ProductsPath) <==> to.requiresGuest && authenticated
    ensures d == Proceed <==> (!to.requiresAuth || authenticated) && (!to.requiresGuest || !authenticated)
  {
    if to.requiresAuth && !authenticated then RedirectTo(AuthStore.LoginPath)
    else if to.requiresGuest && authenticated then RedirectTo(AuthStore.ProductsPath)
    else Proceed
  }

  datatype Guarded = Guarded(client: AuthStore.Client, decision: Decision)

  /** One run of the guard: rehydrate the session, then decide on the
      rehydrated session. */
  function BeforeEach(c: AuthStore.Client, to: Meta): (r: Guarded)
    ensures r.client == AuthStore.RestoreSession(c)
    ensures r.decision.RedirectTo? ==> r.decision.path in {AuthStore.LoginPath, AuthStore.ProductsPath}
  {
    var restored := AuthStore.RestoreSession(c);
    Guarded(restored, Decide(to, AuthStore.IsAuthenticated(restored.session)))
  }

  /** Where a navigation ends: the client after the guard and the meta of the page shown. */
  datatype Landing = Landing(client: AuthStore.Client, meta: Meta)

  /** A navigation to a page with meta `to`. A redirect starts a new
      navigation, which runs the guard again; `hops` bounds how many redirects
      are followed before giving up. */
  function Navigate(c: AuthStore.Client, to: Meta, hops: nat): (r: Option<Landing>)
    ensures r.Some? ==> Decide(r.value.meta, AuthStore.IsAuthenticated(r.value.client.session)) == Proceed
    ensures hops > 0 ==> r.Some?
    decreases hops
  {
    var g := BeforeEach(c, to);
    match g.decision
    case Proceed => Some(Landing(g.client, to))
    case RedirectTo(p) => if hops == 0 then None else Navigate(g.client, MetaOf(p), hops - 1)
  }

  /** The guard treats the session as signed in exactly when memory or storage
      holds a non-empty access token. */
  lemma GuardSeesStoredToken(c: AuthStore.Client, to: Meta)
    ensures AuthStore.IsAuthenticated(BeforeEach(c, to).client.session) <==>
              AuthStore.IsAuthenticated(c.session) || AuthStore.StoredToken(c.storage, AuthStore.AccessTokenKey).Some?
    ensures BeforeEach(c, to).decision
              == Decide(to, AuthStore.IsAuthenticated(c.session) || AuthStore.StoredToken(c.storage, AuthStore.AccessTokenKey).Some?)
  {
  }

  /** `Find` returns the first record registered under `path`. */
  lemma {:induction false} FindFirst(routes: seq<Route>, i: nat, path: string)
    requires i < |routes| && routes[i].path == path
    requires forall j :: 0 <= j < i ==> routes[j].path != path
    ensures Find(routes, path) == Some(routes[i])
    decreases i
  {
    if i > 0 {
      FindFirst(routes[1..], i - 1, path);
    }
  }

  /** Paths in the table are distinct, so each page is found under its own path. */
  lemma PageFound(i: nat)
    requires i < |Routes| && Routes[i].Page?
    ensures MetaOf(Routes[i].path) == Routes[i].meta
  {
  }

  /** The shape of the route table. */
  lemma RouteTable()
    ensures MetaOf(AuthStore.LoginPath) == Meta(false, true)
    ensures MetaOf(AuthStore.ProductsPath) == Meta(true, false)
    ensures MetaOf("/products/new") == Meta(true, false)
    ensures MetaOf("/products/:id") == Meta(true, false)
    ensures MetaOf("/") == MetaOf(AuthStore.ProductsPath)
  {
    PageFound(0);
    PageFound(1);
    PageFound(2);
    PageFound(3);
    RootLeadsToProducts();
  }

  /** The record at `/` redirects to the products page. */
  lemma RootLeadsToProducts()
    ensures MetaOf("/") == MetaOf(AuthStore.ProductsPath)
  {
    FindFirst(Routes, 1, AuthStore.ProductsPath);
    FindFirst(Routes, 4, "/");
  }

  /** No page is both sign-in-only and guest-only, and the login page is the
      only guest-only one. */
  lemma GuestAndAuthAreExclusive()
    ensures forall r :: r in Routes && r.Page? ==> !(r.meta.requiresAuth && r.meta.requiresGuest)
    ensures forall r :: r in Routes && r.Page? && r.meta.requiresGuest ==> r.path == AuthStore.LoginPath
  {
  }

  /** Every navigation settles after at most one redirect: a signed-out
      session never ends on a page that needs sign-in, and a signed-in one
      never ends on a guest-only page (the login page). The navigation keeps
      the rehydrated session and reaches the requested page when the guard
      lets it through, and the redirect target otherwise. */
  lemma NavigationSettles(c: AuthStore.Client, to: Meta)
    ensures Navigate(c, to, 1).Some?
    ensures Navigate(c, to, 1).value.client == AuthStore.RestoreSession(c)
    ensures BeforeEach(c, to).decision == Proceed ==> Navigate(c, to, 1).value.meta == to
    ensures BeforeEach(c, to).decision.RedirectTo? ==>
              Navigate(c, to, 1).value.meta == MetaOf(BeforeEach(c, to).decision.path)
    ensures var l := Navigate(c, to, 1).value;
      && (!AuthStore.IsAuthenticated(l.client.session) ==> !l.meta.requiresAuth)
      && (AuthStore.IsAuthenticated(l.client.session) ==> !l.meta.requiresGuest)
  {
  }
}

=== FILE: wrappers.dfy ===
/** Optional values and the outcomes of remote calls, shared by the stores. */
module Wrappers {

  datatype Option<+T> = None | Some(value: T) {

    /** The held value, or `default` when there is none. */
    function GetOr(default: T): T {
      match this
      case Some(v) => v
      case None => default
    }
  }

  /** How one awaited HTTP call settled: the response body, or a rejection
      carrying the `message` field of the error response when it had one. */
  datatype Response<+T> = Ok(data: T) | Err(message: Option<string>)

  /** JavaScript truthiness of a value that is either `null` or a string. */
  predicate Truthy(s: Option<string>) {
    s.Some? && s.value != ""
  }

  /** The message an action records when its call fails: the server's message
      when there is a non-empty one, the action's fixed fallback otherwise. */
  function ErrorText(message: Option<string>, fallback: string): (r: string)
    ensures Truthy(message) ==> r == message.value
    ensures !Truthy(message) ==> r == fallback
    ensures fallback != "" ==> r != ""
  {
    match message
    case Some(m) => if m != "" then m else fallback
    case None => fallback
  }
}
